=== FILE: README.md ===
# Market-data collector: selection rules and the `stddev` aggregate

This project models, in Dafny, the logic of a small Go program that collects
crypto-exchange market data into SQLite. The program fetches Binance
USDT-futures klines (OHLCV candles) for every symbol in a symbol file and
inserts them into a `binance` table. It can build that symbol file from
Binance's exchange-info listing and load FTX perpetual futures into an `ftx`
table. The repository also has a package `customsql` that registers a custom
SQLite aggregate, `stddev`, on its own driver `"sqlite3_custom"`. `main.go`
does not import that package: it opens the driver
`"sqlite3-extension-functions"`, and its one statistics query calls that
extension's `stdev`.

Two modules hold the model:

- `Market` (`market.dfy`) models `main.go`. HTTP responses, the symbol list
  and the directory listing are inputs. A transport or body-read error is the
  value `FetchFailed`: `checkErr` panics on it, so the run stops and the rows
  already inserted stay. An HTTP error status is no error to `http.Get`. Its
  body does not decode into klines, and the program ignores that decode
  error, so the response is `Fetched([])`. The SQLite database is the class `Store`. Its
  `binance` and `ftx` fields are the two tables, as sequences of rows in
  insertion order. `initializeDataInBinance` is a method with the source's two
  loops, and its contract is given by the function `RunBinance`. The lemmas
  then say what `RunBinance` requests and stores. The symbol-file writer and
  the FTX loader follow the same pattern with `UsdtLines` and
  `PerpetualRows`.
- `CustomSql` (`custom_sql.dfy`) models `customsql/customsql.go`. The class
  `Stddev` has the fields `xs`, `sum` and `n`, and its invariant `Valid()`
  says that `n == |xs|` and that `sum` is the sum of `xs`. `Done` runs the
  source's two loops and returns the population variance inside the
  constructor `Sqrt`, so the square root stays symbolic. An empty group gives
  `NaN`, as Go's `0/0` does. `float64` is modelled by exact `real`
  arithmetic.

`wrappers.dfy` holds the `Option` type.

### What the code does not do

`main.go` keeps no rolling window of statistics and detects no anomalies.
It sends no alerts and does not deduplicate against rows already stored:

- A transport error aborts the whole run, and every later symbol is skipped
  (`RunBinanceRequests`, `RunBinanceStops`). It is not isolated to its
  symbol.
- A symbol answered with an HTTP error status silently stores nothing, and
  the run continues (`ShortResponseSkipsSymbol`).
- Every closed kline of every response is inserted, whether or not an equal
  row is already in the table.
- `stddev` keeps every raw value and recomputes the deviation in two passes.
  It keeps no sum of squares. `VarianceFromRunningSums` proves that a one-pass
  summary of count, sum and sum of squares would give the same value.

## Model

| member | source | states |
|---|---|---|
| `Market.SlotOf` | main.go:195 | the columns read kline slots 0, 1, 2, 3, 4, 6 and 7 only, so slot 5 (base-asset volume) is never stored |
| `Market.SlotOfInjective` | main.go:195 | no two columns read the same slot |
| `Market.BinanceRowColumns` | main.go:195-206 | the mapping `BinanceRowOf` performs: openTime, open, high, low, close, volume and closeTime hold slots 0, 1, 2, 3, 4, 7 and 6; `volume` is the quote-asset volume; `name` is the symbol |
| `Market.BinanceRowDeterminedBySlots` | main.go:195-206 | two klines give the same row iff they agree on the seven stored slots, so slots 5 and 8-11 never reach the table |
| `Market.Store.constructor` | main.go:100-101 | after `binance` is dropped and recreated it is empty; `ftx` keeps the rows it already held, because its drop and create are commented out |
| `Market.Store.InsertRowsIntoBinance` | main.go:194-207 | appends exactly one row, mapped from the kline, to `binance` and leaves `ftx` alone |
| `Market.FtxRowColumns` | main.go:382-390 | the mapping `FtxRowOf` performs: `volume` holds `volumeUsd24h` and `oi` holds `openInterestUsd`; two futures give the same row iff they agree on name, last, change1h, change24h, volumeUsd24h and openInterestUsd, so the other six fields never reach the table |
| `Market.Store.InsertRowsIntoFtx` | main.go:377-391 | appends the mapped row only for a perpetual future; a non-perpetual argument inserts nothing |
| `Market.ClosedCandles` | main.go:235-240 | a response of n > 0 klines has n - 1 closed ones; an empty response has none |
| `Market.ClosedCandlesThenOpen` | main.go:235-240 | the closed klines followed by the last, still-open kline are the whole response |
| `Market.SymbolRowsAt` | main.go:236-241 | the i-th row stored for a response is the row of the response's i-th kline (order kept) |
| `Market.StoredKlinesOfResponse` | main.go:235-242 | for one response: zero or one kline stores nothing; otherwise exactly every kline except the last is stored, once each, in response order |
| `Market.RunBinanceAppend` | main.go:225-243 | the run over the symbols `a + b` is the run over `a` followed by the run over `b`; a panic in `a` means no symbol of `b` is fetched |
| `Market.ShortResponseSkipsSymbol` | main.go:228-242 | a symbol whose response decodes to at most one kline (an HTTP error status decodes to none) adds its request, stores no row and does not abort the run |
| `Market.RunBinanceStops` | main.go:228-229 | once a fetch has panicked, the rest of the symbol file changes nothing |
| `Market.RunBinanceRequests` | main.go:224-229 | the i-th request is for the i-th symbol with the run's limit; a run panics iff some fetch fails, and it stops right after the first failing request |
| `Market.RunBinanceComplete` | main.go:225-243 | when every fetch succeeds, every symbol is requested and the stored rows are each symbol's closed klines, symbol by symbol in file order (a front-to-back reference definition) |
| `Market.InsertClosedKlines` | main.go:235-242 | the inner loop appends the rows of all klines except the one at `lastIndex`, in order |
| `Market.InitializeDataInBinance` | main.go:216-244 | asks for `limit + 1` klines per symbol; the requests made, the panic flag and the rows appended to `binance` are those of `RunBinance` with `limit + 1`; `ftx` is unchanged |
| `Market.UsdtLinesExact` | main.go:299-303 | a line is written iff it is a listed symbol ending in "USDT" followed by "\n" |
| `Market.UsdtLines` | main.go:299-303 | at most one line per listed symbol |
| `Market.UsdtLinesOne` | main.go:300-302 | one symbol gives exactly one line, itself plus "\n", if it ends in "USDT", and no line otherwise; with `UsdtLinesAppend` each USDT symbol is written exactly once, in listing order |
| `Market.UsdtLinesAppend` | main.go:299-303 | the lines keep the order of the symbol listing |
| `Market.GetAllBinanceUsdtPairs` | main.go:276-304 | the `WriteString` arguments are `UsdtLines` of the response; a failed fetch panics and writes nothing |
| `Market.PerpetualRows` | main.go:401-405 | at most one row per listed future |
| `Market.PerpetualRowsExact` | main.go:401-405 | a row is stored iff it comes from a perpetual future of the list |
| `Market.PerpetualRowsAppend` | main.go:401-405 | the FTX rows keep the order of the futures list |
| `Market.InitializeDataInFtx` | main.go:393-406 | appends `PerpetualRows` of the response to `ftx`, or nothing when the fetch fails; `binance` is unchanged |
| `Market.CheckOrder` | main.go:307-310 | the report goes ahead iff the order is "DESC" or "ASC", and the order it uses is the one given; any other string is the panic |
| `Market.CheckOrderKeyword` | main.go:306-310 | both sort orders pass the guard and read back as themselves |
| `Market.FileExistInCwd` | main.go:435-444 | true iff some directory entry's name equals `fname` |
| `CustomSql.PopulationVariance` | customsql/customsql.go:34-43 | the mean of the squared deviations from the mean, dividing by the count; never negative |
| `CustomSql.SumAppend` | customsql/customsql.go:30 | summing distributes over concatenation, so `sum += x` keeps `sum` equal to the sum of `xs` |
| `CustomSql.SquaredDeviationsNonnegative` | customsql/customsql.go:36-42 | the accumulated squared deviations are non-negative, so the value passed to the square root is too |
| `CustomSql.SquaredDeviationsExpand` | customsql/customsql.go:36-42 | the sum of squared deviations from m equals sum(x^2) - 2*m*sum(x) + n*m^2 |
| `CustomSql.VarianceFromRunningSums` | customsql/customsql.go:33-43 | the two-pass population variance equals sum(x^2)/n - mean^2, the formula a running-sums summary computes |
| `CustomSql.PopulationNotSample` | customsql/customsql.go:43 | for the values 1 and 3 the result is 1, not the sample variance 2 |
| `CustomSql.Stddev.constructor` | customsql/customsql.go:27 | `newStddev` starts with an empty `xs`, `sum = 0` and `n = 0` |
| `CustomSql.Stddev.Step` | customsql/customsql.go:28-32 | appends `x` to `xs`, adds it to `sum` and increments `n`, keeping `n == \|xs\|` and `sum == Sum(xs)` |
| `CustomSql.Stddev.Done` | customsql/customsql.go:33-45 | returns the square root of the population variance of `xs`, or NaN for an empty group; reads the fields without changing them |

## Left out

- HTTP: `httpGetUrlRequestAndIORead` (main.go:473-481) is the `source` or `response` parameter. The URL text built with `fmt.Sprintf` is modelled as the `KlineRequest` record. Every GET is assumed to return. `http.Get` uses the default client, which has no timeout, so a GET can block forever. A hung fetch, and the overlapping runs it causes, are not modelled.
- Fetches are deterministic: `source` is a function of the request, so the model assumes each request gets one fixed outcome. Two equal lines in the symbol file therefore get the same response, and a response that changes between two GETs is not modelled. `RunBinanceRequests` and `RunBinanceAppend` rest on this assumption.
- The earlier contents of `ftx` are a parameter of `Store`'s constructor. The model says nothing about where they came from.
- JSON decoding of `KLine_Response`, `FTX_Response` and the exchange-info listing is library behaviour, and the program ignores its errors. The decoded values are inputs. Slots a short kline array leaves empty are `Null`.
- The symbol file: reading it with `bufio.Scanner` (main.go:219-226) becomes the `symbols` argument. The panic of `os.Open` on the symbol file (main.go:219-220) is not modelled. `scanner.Err()` is never checked, so a line longer than 64 KiB silently ends the symbol loop; the model takes the lines the scanner delivers as `symbols`. Creating the file with `os.Create` (main.go:279-283) is not modelled, including the panic when creation fails.
- `os.ReadDir` (main.go:436) becomes the `entries` argument. The panic when it fails is not modelled.
- Values are narrower than Go's, in two ways:
  - `Field` has no JSON boolean, array or object.
  - Strings are sequences of Unicode characters, while Go strings are bytes, so a directory entry name that is not valid UTF-8 cannot be given to `FileExistInCwd`.
- All SQL is left out, because SQLite executes it, not Go: the table DDL (`dropTable*`, `createTable*`), the prepared-statement plumbing, the 24h volume query, the 1h-change query after its guard, and the unused anomaly query in `testQueryWithExtension` (main.go:162-192). Statement errors after `Prepare`, which the program ignores, are not modelled either.
- Driver registration and extension loading (main.go:72-82, `customsql.go` `init`, sqlite3extension/extension-functions.go) are foreign calls. The Telegram wrapper (tgbotwrapper/tgbotapi.go) is an external library.
- The cron schedule, `select {}`, `main` and `initRequiredFiles` are timer and process plumbing (main.go:55-131). `createFileIfDoesNotExist` (main.go:446-451) creates a file and is left out with the other file I/O.
- `printCurrentTime` and the output loops of `displayTop24HVolumeInBinance`, `displayTop1hChangeInFtx`, `displayTop10VolumeInFtx` and `displayAllRowsInFtx` only print.
- `getrand` is randomness. `pow` is `math.Pow` on floats truncated to int64 (customsql/customsql.go:12-18).
- IEEE `float64` behaviour (rounding, overflow, NaN propagation in general) is left out. Values are exact `real`, and `math.Sqrt` is the uninterpreted constructor `Deviation.Sqrt`.
- CustomSql.Stddev.Step: does not model the wrap-around of the `int64` counter `n`, because no group reaches 2^63 rows.
- Market.InitializeDataInBinance: does not model the wrap-around of Go's `int` in `limit + 1`, because the program only passes 99 and 1.
- Concurrency is left out. The cron library starts every firing of the job at main.go:107-111 in its own goroutine, and nothing stops two firings from overlapping. `*sql.DB` is a connection pool. Each `InitializeDataInBinance` call is modelled as running alone, which holds while one run takes less than the 15-minute period.


=== FILE: custom_sql.dfy ===
/**
 * The `stddev` aggregate that the custom SQLite driver registers
 * (customsql/customsql.go). SQLite calls `Step` once per row of a group and
 * `Done` once at the end. `float64` is modelled by `real` (exact arithmetic),
 * and the final `math.Sqrt` is kept symbolic: `Done` returns the radicand
 * wrapped in `Sqrt`, or `NaN` for an empty group.
 */
module CustomSql {

  /** The sum of a sequence. */
  function Sum(s: seq<real>): real
  {
    if s == [] then 0.0 else s[0] + Sum(s[1..])
  }

  /** `e` squared (`math.Pow(e, 2)`). */
  function Square(e: real): real
  {
    e * e
  }

  /** The squared deviation of every element from `m`, in order. */
  function SquaredDeviations(xs: seq<real>, m: real): seq<real>
  {
    seq(|xs|, i requires 0 <= i < |xs| => Square(xs[i] - m))
  }

  /** The square of every element, in order. */
  function Squares(xs: seq<real>): seq<real>
  {
    seq(|xs|, i requires 0 <= i < |xs| => Square(xs[i]))
  }

  /** Arithmetic mean. */
  function Mean(xs: seq<real>): real
    requires xs != []
  {
    Sum(xs) / (|xs| as real)
  }

  /**
   * Population variance: the mean of the squared deviations from the mean,
   * dividing by the number of values (not by one less).
   */
  function PopulationVariance(xs: seq<real>): (v: real)
    requires xs != []
    ensures v >= 0.0
  {
    SquaredDeviationsNonnegative(xs, Mean(xs));
    Sum(SquaredDeviations(xs, Mean(xs))) / (|xs| as real)
  }

  /** Summing distributes over concatenation. */
  lemma {:induction false} SumAppend(a: seq<real>, b: seq<real>)
    ensures Sum(a + b) == Sum(a) + Sum(b)
  {
    if a == [] {
      assert a + b == b;
    } else {
      assert (a + b)[1..] == a[1..] + b;
      SumAppend(a[1..], b);
    }
  }

  /** A sum of non-negative terms is non-negative. */
  lemma {:induction false} SumNonnegative(s: seq<real>)
    requires forall i :: 0 <= i < |s| ==> s[i] >= 0.0
    ensures Sum(s) >= 0.0
  {
    if s != [] {
      SumNonnegative(s[1..]);
    }
  }

  /** The sum of squared deviations is non-negative, whatever the centre. */
  lemma SquaredDeviationsNonnegative(xs: seq<real>, m: real)
    ensures Sum(SquaredDeviations(xs, m)) >= 0.0
  {
    var d := SquaredDeviations(xs, m);
    forall i | 0 <= i < |d|
      ensures d[i] >= 0.0
    {
      var e := xs[i] - m;
      if e < 0.0 {
        assert Square(e) == (-e) * (-e);
      }
    }
    SumNonnegative(d);
  }

  /** `q - 2*m*s + n*m^2`: the sum of squares about `m`, from count `n`, sum `s` and sum of squares `q`. */
  function Expanded(q: real, s: real, n: real, m: real): real
  {
    q - 2.0 * m * s + n * m * m
  }

  /**
   * The sum of squared deviations from `m` expands to
   * `sum(x^2) - 2*m*sum(x) + n*m^2`.
   */
  lemma {:induction false} SquaredDeviationsExpand(xs: seq<real>, m: real)
    ensures Sum(SquaredDeviations(xs, m)) == Expanded(Sum(Squares(xs)), Sum(xs), |xs| as real, m)
  {
    if xs == [] {
      assert SquaredDeviations(xs, m) == [] && Squares(xs) == [];
    } else {
      var x := xs[0];
      var d, d' := SquaredDeviations(xs, m), SquaredDeviations(xs[1..], m);
      forall i | 0 <= i < |d'| ensures d[1..][i] == d'[i] {
        assert xs[1..][i] == xs[i + 1];
      }
      assert d[1..] == d';
      var q, q' := Squares(xs), Squares(xs[1..]);
      forall i | 0 <= i < |q'| ensures q[1..][i] == q'[i] {
        assert xs[1..][i] == xs[i + 1];
      }
      assert q[1..] == q';
      SquaredDeviationsExpand(xs[1..], m);
      ExpandStep(x, m, |xs[1..]| as real, Sum(d'), Sum(q'), Sum(xs[1..]),
                 |xs| as real, Sum(d), Sum(q), Sum(xs));
    }
  }

  /**
   * Independent formulation by running sums: the population variance is
   * `sum(x^2)/n - mean^2`, so the two-pass computation in `Done` agrees with
   * a one-pass summary of count, sum and sum of squares.
   */
  lemma VarianceFromRunningSums(xs: seq<real>)
    requires xs != []
    ensures PopulationVariance(xs) == Sum(Squares(xs)) / (|xs| as real) - Mean(xs) * Mean(xs)
  {
    var m := Mean(xs);
    var d := Sum(SquaredDeviations(xs, m));
    SquaredDeviationsExpand(xs, m);
    CentredSquaresAlgebra(|xs| as real, Sum(xs), Sum(Squares(xs)), m, d);
    assert PopulationVariance(xs) == d / (|xs| as real);
  }

  /** One step of `SquaredDeviationsExpand`, on plain numbers. */
  lemma ExpandStep(x: real, m: real, n: real, d: real, q: real, s: real,
                   n': real, d': real, q': real, s': real)
    requires d == Expanded(q, s, n, m)
    requires n' == n + 1.0 && d' == Square(x - m) + d && q' == Square(x) + q && s' == x + s
    ensures d' == Expanded(q', s', n', m)
  {
  }

  /** The arithmetic step of `VarianceFromRunningSums`, on plain numbers. */
  lemma CentredSquaresAlgebra(n: real, s: real, q: real, m: real, d: real)
    requires n > 0.0 && m == s / n
    requires d == Expanded(q, s, n, m)
    ensures d / n == q / n - m * m
  {
  }

  /**
   * The divisor is the number of values: for the values 1 and 3 the result
   * is 1 (a sample variance would give 2).
   */
  lemma PopulationNotSample()
    ensures PopulationVariance([1.0, 3.0]) == 1.0
  {
  }

  /** The value `Done` hands back to SQLite. */
  datatype Deviation =
    | NaN                   // 0/0 on an empty group
    | Sqrt(radicand: real)  // math.Sqrt applied to `radicand`

  /** The aggregate's state for one group. */
  class Stddev {
    var xs: seq<real>
    var sum: real
    var n: int

    /** The bookkeeping invariant kept by `Step`. */
    ghost predicate Valid()
      reads this
    {
      n == |xs| && sum == Sum(xs)
    }

    /** `newStddev`: a zero-valued aggregate. */
    constructor ()
      ensures Valid()
      ensures xs == [] && sum == 0.0 && n == 0
    {
      xs, sum, n := [], 0.0, 0;
    }

    /** Folds one value of the group into the state. */
    method Step(x: real)
      requires Valid()
      modifies this
      ensures Valid()
      ensures xs == old(xs) + [x]
      ensures sum == old(sum) + x && n == old(n) + 1
    {
      SumAppend(xs, [x]);
      assert Sum([x]) == x + Sum([]);
      xs := xs + [x];
      sum := sum + x;
      n := n + 1;
    }

    /**
     * The population standard deviation of the stepped values: the mean
     * from the running sum and count, then the squared deviations, then
     * their sum divided by the number of values.
     */
    method Done() returns (r: Deviation)
      requires Valid()
      ensures xs == [] ==> r == NaN
      ensures xs != [] ==> r == Sqrt(PopulationVariance(xs))
    {
      if n == 0 {
        // mean is 0/0, dev stays 0 and is divided by 0: NaN, and Sqrt(NaN) is NaN
        return NaN;
      }
      var mean := sum / (n as real);
      var sqDiff: seq<real> := [];
      for i := 0 to |xs|
        invariant sqDiff == SquaredDeviations(xs[..i], mean)
      {
        sqDiff := sqDiff + [Square(xs[i] - mean)];
      }
      var dev := 0.0;
      for i := 0 to |sqDiff|
        invariant dev == Sum(sqDiff[..i])
      {
        assert sqDiff[..i + 1] == sqDiff[..i] + [sqDiff[i]];
        SumAppend(sqDiff[..i], [sqDiff[i]]);
        assert Sum([sqDiff[i]]) == sqDiff[i] + Sum([]);
        dev := dev + sqDiff[i];
      }
      assert xs[..|xs|] == xs;
      assert sqDiff[..|sqDiff|] == sqDiff;
      dev := dev / (|sqDiff| as real);
      r := Sqrt(dev);
    }
  }
}

=== FILE: market.dfy ===
/**
 * The selection and mapping rules of the market-data collector (main.go):
 * which Binance klines are stored and in which columns, which exchange
 * symbols go into the symbol file, which FTX futures are stored, the sort
 * order guard of the 1h-change report and the lookup of a file name in the
 * working directory.
 *
 * HTTP responses, the symbol file and the directory listing are inputs. The
 * SQLite database is a `Store` object whose two tables are sequences of rows
 * in insertion order (a row's position plays the part of its autoincrement
 * `id`).
 */
module Market {
  import opened Wrappers

  // ----- Values -----

  /** A JSON value as decoded into one `interface{}` slot. */
  datatype Field = Null | Number(x: real) | Text(s: string)

  /** `Candlesticks`: one Binance kline decoded into a fixed array of 12 slots. */
  type Candlestick = c: seq<Field> | |c| == 12 witness seq(12, _ => Null)

  /**
   * The outcome of one HTTP GET and decode. `FetchFailed` is an error from the
   * transport or from reading the body, which `checkErr` turns into a panic
   * that ends the process. An HTTP error status is not an error to `http.Get`:
   * it is `Fetched` with whatever its body decodes to (no klines, for
   * Binance's error object).
   */
  datatype Fetch<T> = Fetched(body: T) | FetchFailed

  /** The parameters of one `/fapi/v1/klines` request. */
  datatype KlineRequest = KlineRequest(symbol: string, interval: string, limit: int)

  /** A row of the `binance` table, in the table's column order after `id`. */
  datatype BinanceRow = BinanceRow(name: string, openTime: Field, open: Field, high: Field,
                                   low: Field, close: Field, volume: Field, closeTime: Field)

  /** One FTX futures listing (the fields of `FTX_Futures`). */
  datatype FtxFuture = FtxFuture(name: string, perpetual: bool, last: real, index: real,
                                 mark: real, change1h: real, change24h: real, changeBod: real,
                                 volumeUsd24h: real, volume: real, openInterest: real,
                                 openInterestUsd: real)

  /** A row of the `ftx` table, in the table's column order after `id`. */
  datatype FtxRow = FtxRow(name: string, last: real, change1h: real, change24h: real,
                           volume: real, oi: real)

  // ----- Kline slots and binance columns -----

  /** The binance columns that are filled from a kline slot. */
  datatype Column = OpenTime | Open | High | Low | Close | Volume | CloseTime

  /**
   * The kline slot each column is read from. The `volume` column takes slot 7,
   * the quote-asset volume; slot 5, the base-asset volume, is never read.
   */
  function SlotOf(col: Column): (slot: nat)
    ensures slot in {0, 1, 2, 3, 4, 6, 7}
  {
    match col
    case OpenTime => 0
    case Open => 1
    case High => 2
    case Low => 3
    case Close => 4
    case CloseTime => 6
    case Volume => 7
  }

  /** The value a row holds in a column. */
  function ColumnValue(row: BinanceRow, col: Column): Field
  {
    match col
    case OpenTime => row.openTime
    case Open => row.open
    case High => row.high
    case Low => row.low
    case Close => row.close
    case Volume => row.volume
    case CloseTime => row.closeTime
  }

  /** The row `insertRowsIntoBinance` inserts for kline `c` of symbol `name`. */
  function BinanceRowOf(name: string, c: Candlestick): BinanceRow
  {
    BinanceRow(name, c[0], c[1], c[2], c[3], c[4], c[7], c[6])
  }

  /** Each column of the row holds the kline slot `SlotOf` assigns to it, and `name` the symbol. */
  lemma BinanceRowColumns(name: string, c: Candlestick, col: Column)
    ensures BinanceRowOf(name, c).name == name
    ensures ColumnValue(BinanceRowOf(name, c), col) == c[SlotOf(col)]
  {
  }

  /** No two columns share a slot, so every stored slot lands in exactly one column. */
  lemma SlotOfInjective(a: Column, b: Column)
    ensures SlotOf(a) == SlotOf(b) <==> a == b
  {
  }

  /**
   * Two klines of the same symbol give the same row exactly when they agree
   * on the slots the columns read: slots 5 and 8 to 11 never reach the table.
   */
  lemma BinanceRowDeterminedBySlots(name: string, c: Candlestick, c': Candlestick)
    ensures BinanceRowOf(name, c) == BinanceRowOf(name, c')
        <==> forall col :: c[SlotOf(col)] == c'[SlotOf(col)]
  {
    if forall col :: c[SlotOf(col)] == c'[SlotOf(col)] {
      assert c[SlotOf(Volume)] == c'[SlotOf(Volume)] && c[SlotOf(CloseTime)] == c'[SlotOf(CloseTime)];
      assert c[SlotOf(OpenTime)] == c'[SlotOf(OpenTime)] && c[SlotOf(Open)] == c'[SlotOf(Open)];
      assert c[SlotOf(High)] == c'[SlotOf(High)] && c[SlotOf(Low)] == c'[SlotOf(Low)];
      assert c[SlotOf(Close)] == c'[SlotOf(Close)];
    }
  }

  // ----- The database -----

  /** The SQLite database with its `binance` and `ftx` tables. */
  class Store {
    var binance: seq<BinanceRow>
    var ftx: seq<FtxRow>

    /**
     * The database after `binance` is dropped and recreated: `binance` is
     * empty, and `ftx` keeps whatever rows it already held.
     */
    constructor (ftxRows: seq<FtxRow>)
      ensures binance == [] && ftx == ftxRows
    {
      binance, ftx := [], ftxRows;
    }

    /** `insertRowsIntoBinance`: one row for kline `c` of symbol `name`. */
    method InsertRowsIntoBinance(name: string, c: Candlestick)
      modifies this
      ensures binance == old(binance) + [BinanceRowOf(name, c)]
      ensures ftx == old(ftx)
    {
      binance := binance + [BinanceRowOf(name, c)];
    }

    /** `insertRowsIntoFtx`: one row for a perpetual future, nothing otherwise. */
    method InsertRowsIntoFtx(c: FtxFuture)
      modifies this
      ensures ftx == old(ftx) + if c.perpetual then [FtxRowOf(c)] else []
      ensures binance == old(binance)
    {
      if !c.perpetual {
        return;
      }
      ftx := ftx + [FtxRowOf(c)];
    }
  }

  // ----- Binance klines -----

  /** The klines of one response that are closed: all but the last, still-forming one. */
  function ClosedCandles(klines: seq<Candlestick>): (closed: seq<Candlestick>)
    ensures |closed| == if klines == [] then 0 else |klines| - 1
  {
    if klines == [] then [] else klines[..|klines| - 1]
  }

  /** The closed klines followed by the open one give back the whole response. */
  lemma ClosedCandlesThenOpen(klines: seq<Candlestick>)
    requires klines != []
    ensures ClosedCandles(klines) + [klines[|klines| - 1]] == klines
  {
  }

  /** The rows for the klines of one symbol, in the klines' order. */
  function SymbolRows(symbol: string, klines: seq<Candlestick>): (rows: seq<BinanceRow>)
    ensures |rows| == |klines|
  {
    if klines == [] then []
    else SymbolRows(symbol, klines[..|klines| - 1]) + [BinanceRowOf(symbol, klines[|klines| - 1])]
  }

  /** The `i`-th row is the row of the `i`-th kline. */
  lemma {:induction false} SymbolRowsAt(symbol: string, klines: seq<Candlestick>, i: nat)
    requires i < |klines|
    ensures SymbolRows(symbol, klines)[i] == BinanceRowOf(symbol, klines[i])
    decreases |klines|
  {
    var prefix := klines[..|klines| - 1];
    if i < |prefix| {
      SymbolRowsAt(symbol, prefix, i);
    }
  }

  /**
   * The rows stored for one kline response: one per kline except the last,
   * in response order. A response of zero or one kline stores nothing.
   */
  lemma StoredKlinesOfResponse(symbol: string, klines: seq<Candlestick>)
    ensures var rows := SymbolRows(symbol, ClosedCandles(klines));
      && (|klines| <= 1 ==> rows == [])
      && (|klines| > 1 ==> |rows| == |klines| - 1)
      && forall i :: 0 <= i < |rows| ==> rows[i] == BinanceRowOf(symbol, klines[i])
  {
    var closed := ClosedCandles(klines);
    forall i | 0 <= i < |closed|
      ensures SymbolRows(symbol, closed)[i] == BinanceRowOf(symbol, klines[i])
    {
      SymbolRowsAt(symbol, closed, i);
    }
  }

  /** What one call of `initializeDataInBinance` requested and stored, and whether it panicked. */
  datatype BinanceRun = BinanceRun(requests: seq<KlineRequest>, rows: seq<BinanceRow>, aborted: bool)

  /**
   * The requests and rows of `initializeDataInBinance` over `symbols`, asking
   * for `limit` klines each. A failed fetch panics: nothing after it happens,
   * and the rows already inserted stay.
   */
  function RunBinance(symbols: seq<string>, interval: string, limit: int,
                      source: KlineRequest -> Fetch<seq<Candlestick>>): BinanceRun
    decreases |symbols|
  {
    if symbols == [] then BinanceRun([], [], false)
    else RunStep(RunBinance(symbols[..|symbols| - 1], interval, limit, source),
                 symbols[|symbols| - 1], interval, limit, source)
  }

  /** One iteration of the symbol loop, unless an earlier fetch panicked. */
  function RunStep(before: BinanceRun, symbol: string, interval: string, limit: int,
                   source: KlineRequest -> Fetch<seq<Candlestick>>): BinanceRun
  {
    if before.aborted then before
    else
      var request := KlineRequest(symbol, interval, limit);
      var response := source(request);
      if response.FetchFailed? then BinanceRun(before.requests + [request], before.rows, true)
      else BinanceRun(before.requests + [request], before.rows + SymbolRows(symbol, ClosedCandles(response.body)), false)
  }

  /** A run over one list of symbols, then over another, unless the first panicked. */
  function Then(first: BinanceRun, second: BinanceRun): BinanceRun
  {
    if first.aborted then first
    else BinanceRun(first.requests + second.requests, first.rows + second.rows, second.aborted)
  }

  /** One more symbol after two runs in sequence is one more symbol after the second. */
  lemma ThenStep(first: BinanceRun, second: BinanceRun, symbol: string, interval: string, limit: int,
                 source: KlineRequest -> Fetch<seq<Candlestick>>)
    ensures RunStep(Then(first, second), symbol, interval, limit, source)
         == Then(first, RunStep(second, symbol, interval, limit, source))
  {
  }

  /**
   * A run over `a + b` is the run over `a` followed by the run over `b`:
   * symbols are processed in file order, and a panic in `a` means `b` is
   * never fetched.
   */
  lemma {:induction false} RunBinanceAppend(a: seq<string>, b: seq<string>, interval: string, limit: int,
                                            source: KlineRequest -> Fetch<seq<Candlestick>>)
    ensures RunBinance(a + b, interval, limit, source)
         == Then(RunBinance(a, interval, limit, source), RunBinance(b, interval, limit, source))
    decreases |b|
  {
    var ra := RunBinance(a, interval, limit, source);
    if b == [] {
      assert a + b == a;
    } else {
      var b', s := b[..|b| - 1], b[|b| - 1];
      assert (a + b)[..|a + b| - 1] == a + b';
      assert (a + b)[|a + b| - 1] == s;
      RunBinanceAppend(a, b', interval, limit, source);
      ThenStep(ra, RunBinance(b', interval, limit, source), s, interval, limit, source);
    }
  }

  /**
   * A symbol answered with at most one kline stores nothing, and the run goes
   * on to the next symbol. This is the case of an HTTP error status: Binance's
   * error object does not decode into a list of klines, so the symbol's
   * response is empty.
   */
  lemma ShortResponseSkipsSymbol(symbols: seq<string>, symbol: string, interval: string, limit: int,
                                 source: KlineRequest -> Fetch<seq<Candlestick>>)
    requires !RunBinance(symbols, interval, limit, source).aborted
    requires source(KlineRequest(symbol, interval, limit)).Fetched?
    requires |source(KlineRequest(symbol, interval, limit)).body| <= 1
    ensures var before := RunBinance(symbols, interval, limit, source);
            RunBinance(symbols + [symbol], interval, limit, source)
            == BinanceRun(before.requests + [KlineRequest(symbol, interval, limit)], before.rows, false)
  {
    assert (symbols + [symbol])[..|symbols|] == symbols;
    assert SymbolRows(symbol, []) == [];
  }

  /** Once a run has panicked, or has reached the end of the file, nothing more happens. */
  lemma RunBinanceStops(symbols: seq<string>, k: nat, interval: string, limit: int,
                        source: KlineRequest -> Fetch<seq<Candlestick>>)
    requires k <= |symbols|
    requires k == |symbols| || RunBinance(symbols[..k], interval, limit, source).aborted
    ensures RunBinance(symbols, interval, limit, source) == RunBinance(symbols[..k], interval, limit, source)
  {
    if k < |symbols| {
      RunBinanceAppend(symbols[..k], symbols[k..], interval, limit, source);
      assert symbols[..k] + symbols[k..] == symbols;
    } else {
      assert symbols[..k] == symbols;
    }
  }

  /**
   * Every symbol is requested with the run's `limit`, in file order, up to
   * and including the first one whose fetch fails; a run panics exactly when
   * its last request failed.
   */
  lemma {:induction false} RunBinanceRequests(symbols: seq<string>, interval: string, limit: int,
                                              source: KlineRequest -> Fetch<seq<Candlestick>>)
    ensures var run := RunBinance(symbols, interval, limit, source);
      && |run.requests| <= |symbols|
      && (forall i :: 0 <= i < |run.requests| ==> run.requests[i] == KlineRequest(symbols[i], interval, limit))
      && (!run.aborted ==> |run.requests| == |symbols|)
      && (run.aborted ==> run.requests != [] && source(run.requests[|run.requests| - 1]).FetchFailed?)
      && (forall i :: 0 <= i < |symbols| && source(KlineRequest(symbols[i], interval, limit)).FetchFailed?
            ==> run.aborted && |run.requests| <= i + 1)
    decreases |symbols|
  {
    if symbols != [] {
      var s' := symbols[..|symbols| - 1];
      RunBinanceRequests(s', interval, limit, source);
      var before := RunBinance(s', interval, limit, source);
      if !before.aborted {
        var run := RunBinance(symbols, interval, limit, source);
        assert run.requests == before.requests + [KlineRequest(symbols[|symbols| - 1], interval, limit)];
        forall i | 0 <= i < |symbols| - 1
          ensures source(KlineRequest(symbols[i], interval, limit)).Fetched?
        {
          assert s'[i] == symbols[i];
        }
      }
    }
  }

  /**
   * A run whose fetches all succeed requests every symbol and stores, for
   * each symbol in file order, every kline of its response except the last.
   */
  lemma {:induction false} RunBinanceComplete(symbols: seq<string>, interval: string, limit: int,
                                              source: KlineRequest -> Fetch<seq<Candlestick>>)
    requires forall i :: 0 <= i < |symbols| ==> source(KlineRequest(symbols[i], interval, limit)).Fetched?
    ensures var run := RunBinance(symbols, interval, limit, source);
      && !run.aborted
      && |run.requests| == |symbols|
      && run.rows == AllClosedRows(symbols, interval, limit, source)
    decreases |symbols|
  {
    if symbols != [] {
      var rest := symbols[1..];
      forall i | 0 <= i < |rest|
        ensures source(KlineRequest(rest[i], interval, limit)).Fetched?
      {
        assert rest[i] == symbols[i + 1];
      }
      RunBinanceComplete(rest, interval, limit, source);
      RunBinanceAppend([symbols[0]], rest, interval, limit, source);
      assert [symbols[0]] + rest == symbols;
      assert [symbols[0]][..0] == [];
      var first := RunBinance([symbols[0]], interval, limit, source);
      var response := source(KlineRequest(symbols[0], interval, limit));
      assert first == RunStep(BinanceRun([], [], false), symbols[0], interval, limit, source);
      assert first.rows == SymbolRows(symbols[0], ClosedCandles(response.body));
      assert !first.aborted && |first.requests| == 1;
    }
  }

  /**
   * Reference definition, symbol by symbol from the front of the file: the
   * closed klines of each symbol's response, in file order.
   */
  function AllClosedRows(symbols: seq<string>, interval: string, limit: int,
                         source: KlineRequest -> Fetch<seq<Candlestick>>): seq<BinanceRow>
  {
    if symbols == [] then []
    else
      var response := source(KlineRequest(symbols[0], interval, limit));
      var rows := if response.Fetched? then SymbolRows(symbols[0], ClosedCandles(response.body)) else [];
      rows + AllClosedRows(symbols[1..], interval, limit, source)
  }

  /**
   * The inner loop of `initializeDataInBinance` for one symbol's response:
   * every kline but the one at the last index, in response order.
   */
  method InsertClosedKlines(db: Store, symbol: string, klines: seq<Candlestick>)
    modifies db
    ensures db.binance == old(db.binance) + SymbolRows(symbol, ClosedCandles(klines))
    ensures db.ftx == old(db.ftx)
  {
    var lastIndex := |klines| - 1;
    for i := 0 to |klines|
      invariant i < |klines| ==> db.binance == old(db.binance) + SymbolRows(symbol, klines[..i])
      invariant i == |klines| ==> db.binance == old(db.binance) + SymbolRows(symbol, ClosedCandles(klines))
      invariant db.ftx == old(db.ftx)
    {
      // the last kline is not closed yet
      if i == lastIndex {
        continue;
      }
      db.InsertRowsIntoBinance(symbol, klines[i]);
      assert klines[..i + 1][..i] == klines[..i];
    }
  }

  /**
   * `initializeDataInBinance`: for each symbol of the symbol file, request
   * `limit + 1` klines and insert all of them except the last, which is still
   * open. Returns the requests made and whether a failed fetch panicked.
   */
  method InitializeDataInBinance(db: Store, symbols: seq<string>, interval: string, limit: int,
                                 source: KlineRequest -> Fetch<seq<Candlestick>>)
    returns (requests: seq<KlineRequest>, aborted: bool)
    modifies db
    ensures var run := RunBinance(symbols, interval, limit + 1, source);
      && requests == run.requests
      && aborted == run.aborted
      && db.binance == old(db.binance) + run.rows
    ensures db.ftx == old(db.ftx)
  {
    var requested := limit + 1;
    requests, aborted := [], false;
    ghost var run := BinanceRun([], [], false);
    var k := 0;
    while k < |symbols| && !aborted
      invariant 0 <= k <= |symbols|
      invariant run == RunBinance(symbols[..k], interval, requested, source)
      invariant requests == run.requests && aborted == run.aborted
      invariant db.binance == old(db.binance) + run.rows
      invariant db.ftx == old(db.ftx)
      decreases |symbols| - k
    {
      var symbol := symbols[k];
      var request := KlineRequest(symbol, interval, requested);
      requests := requests + [request];
      var response := source(request);
      if response.FetchFailed? {
        // checkErr panics
        aborted := true;
      } else {
        InsertClosedKlines(db, symbol, response.body);
        ghost var inserted := SymbolRows(symbol, ClosedCandles(response.body));
        assert old(db.binance) + (run.rows + inserted) == old(db.binance) + run.rows + inserted;
      }
      assert symbols[..k + 1][..k] == symbols[..k];
      run := RunStep(run, symbol, interval, requested, source);
      assert run == RunBinance(symbols[..k + 1], interval, requested, source);
      assert db.binance == old(db.binance) + run.rows;
      k := k + 1;
    }
    RunBinanceStops(symbols, k, interval, requested, source);
  }

  // ----- The symbol file -----

  /** `strings.HasSuffix`. */
  predicate HasSuffix(s: string, suffix: string)
  {
    |suffix| <= |s| && s[|s| - |suffix|..] == suffix
  }

  /** The lines written to the symbol file for the exchange's symbol list: at most one per symbol. */
  function UsdtLines(symbols: seq<string>): (lines: seq<string>)
    ensures |lines| <= |symbols|
  {
    if symbols == [] then []
    else
      var s := symbols[|symbols| - 1];
      UsdtLines(symbols[..|symbols| - 1]) + if HasSuffix(s, "USDT") then [s + "\n"] else []
  }

  /** A single symbol is written once, with a newline, if it ends in "USDT", and not at all otherwise. */
  lemma UsdtLinesOne(s: string)
    ensures UsdtLines([s]) == if HasSuffix(s, "USDT") then [s + "\n"] else []
  {
    assert [s][..0] == [];
  }

  /**
   * A line is written exactly when it is a symbol of the list that ends in
   * "USDT", followed by a newline.
   */
  lemma {:induction false} UsdtLinesExact(symbols: seq<string>)
    ensures forall line :: line in UsdtLines(symbols) ==>
              exists s :: s in symbols && HasSuffix(s, "USDT") && line == s + "\n"
    ensures forall s :: s in symbols && HasSuffix(s, "USDT") ==> s + "\n" in UsdtLines(symbols)
    decreases |symbols|
  {
    if symbols != [] {
      var prefix := symbols[..|symbols| - 1];
      UsdtLinesExact(prefix);
      assert symbols == prefix + [symbols[|symbols| - 1]];
    }
  }

  /** The lines keep the order of the symbol list: writing `a + b` writes `a`'s lines, then `b`'s. */
  lemma {:induction false} UsdtLinesAppend(a: seq<string>, b: seq<string>)
    ensures UsdtLines(a + b) == UsdtLines(a) + UsdtLines(b)
    decreases |b|
  {
    if b == [] {
      assert a + b == a;
    } else {
      var b' := b[..|b| - 1];
      assert (a + b)[..|a + b| - 1] == a + b';
      assert (a + b)[|a + b| - 1] == b[|b| - 1];
      UsdtLinesAppend(a, b');
    }
  }

  /**
   * `getAllBinanceUSDTPairs`: the strings passed to `WriteString`, one per
   * symbol of the exchange-info response that ends in "USDT", in response
   * order. A failed fetch panics after the file was created, leaving it empty.
   */
  method GetAllBinanceUsdtPairs(response: Fetch<seq<string>>) returns (writes: seq<string>, aborted: bool)
    ensures aborted <==> response.FetchFailed?
    ensures writes == if aborted then [] else UsdtLines(response.body)
  {
    writes := [];
    if response.FetchFailed? {
      return writes, true;
    }
    aborted := false;
    var symbols := response.body;
    for i := 0 to |symbols|
      invariant writes == UsdtLines(symbols[..i])
    {
      assert symbols[..i + 1][..i] == symbols[..i];
      if HasSuffix(symbols[i], "USDT") {
        writes := writes + [symbols[i] + "\n"];
      }
    }
    assert symbols[..|symbols|] == symbols;
  }

  // ----- FTX futures -----

  /**
   * The row `insertRowsIntoFtx` inserts: the `volume` column takes the 24h
   * USD volume and `oi` the USD open interest.
   */
  function FtxRowOf(c: FtxFuture): FtxRow
  {
    FtxRow(c.name, c.last, c.change1h, c.change24h, c.volumeUsd24h, c.openInterestUsd)
  }

  /**
   * The `volume` column holds the 24h USD volume and `oi` the USD open
   * interest; two futures give the same row exactly when they agree on the
   * six stored fields, so `perpetual`, `index`, `mark`, `changeBod`, the
   * coin `volume` and the coin `openInterest` never reach the table.
   */
  lemma FtxRowColumns(c: FtxFuture, c': FtxFuture)
    ensures FtxRowOf(c).name == c.name && FtxRowOf(c).last == c.last
    ensures FtxRowOf(c).volume == c.volumeUsd24h && FtxRowOf(c).oi == c.openInterestUsd
    ensures FtxRowOf(c) == FtxRowOf(c')
        <==> c.name == c'.name && c.last == c'.last && c.change1h == c'.change1h
             && c.change24h == c'.change24h && c.volumeUsd24h == c'.volumeUsd24h
             && c.openInterestUsd == c'.openInterestUsd
  {
  }

  /** The rows stored for a futures list: one per perpetual future, in list order. */
  function PerpetualRows(futures: seq<FtxFuture>): (rows: seq<FtxRow>)
    ensures |rows| <= |futures|
  {
    if futures == [] then []
    else
      var f := futures[|futures| - 1];
      PerpetualRows(futures[..|futures| - 1]) + if f.perpetual then [FtxRowOf(f)] else []
  }

  /** Exactly the perpetual futures are stored. */
  lemma {:induction false} PerpetualRowsExact(futures: seq<FtxFuture>)
    ensures forall r :: r in PerpetualRows(futures) ==>
              exists f :: f in futures && f.perpetual && r == FtxRowOf(f)
    ensures forall f :: f in futures && f.perpetual ==> FtxRowOf(f) in PerpetualRows(futures)
    decreases |futures|
  {
    if futures != [] {
      var prefix := futures[..|futures| - 1];
      PerpetualRowsExact(prefix);
      assert futures == prefix + [futures[|futures| - 1]];
    }
  }

  /** The rows keep the order of the futures list. */
  lemma {:induction false} PerpetualRowsAppend(a: seq<FtxFuture>, b: seq<FtxFuture>)
    ensures PerpetualRows(a + b) == PerpetualRows(a) + PerpetualRows(b)
    decreases |b|
  {
    if b == [] {
      assert a + b == a;
    } else {
      var b' := b[..|b| - 1];
      assert (a + b)[..|a + b| - 1] == a + b';
      assert (a + b)[|a + b| - 1] == b[|b| - 1];
      PerpetualRowsAppend(a, b');
    }
  }

  /**
   * `initializeDataInFtx`: fetch the futures list and insert a row for each
   * perpetual future. A failed fetch panics before anything is inserted.
   */
  method InitializeDataInFtx(db: Store, response: Fetch<seq<FtxFuture>>) returns (aborted: bool)
    modifies db
    ensures aborted <==> response.FetchFailed?
    ensures db.ftx == old(db.ftx) + if aborted then [] else PerpetualRows(response.body)
    ensures db.binance == old(db.binance)
  {
    if response.FetchFailed? {
      return true;
    }
    aborted := false;
    var futures := response.body;
    for i := 0 to |futures|
      invariant db.ftx == old(db.ftx) + PerpetualRows(futures[..i])
      invariant db.binance == old(db.binance)
    {
      assert futures[..i + 1][..i] == futures[..i];
      var coin := futures[i];
      if coin.perpetual {
        db.InsertRowsIntoFtx(coin);
      }
    }
    assert futures[..|futures|] == futures;
  }

  // ----- Report ordering and the working directory -----

  /** The two sort orders the 1h-change report accepts. */
  datatype SortOrder = Desc | Asc

  /** The SQL keyword of a sort order. */
  function Keyword(order: SortOrder): string
  {
    match order
    case Desc => "DESC"
    case Asc => "ASC"
  }

  /**
   * The guard of `displayTop1hChangeInFtx`: `None` is the panic for any order
   * other than "DESC" or "ASC".
   */
  function CheckOrder(order: string): (r: Option<SortOrder>)
    ensures r.Some? <==> order == "DESC" || order == "ASC"
    ensures r.Some? ==> Keyword(r.value) == order
  {
    if order == "DESC" then Some(Desc)
    else if order == "ASC" then Some(Asc)
    else None
  }

  /** Every sort order's keyword passes the guard and reads back as itself. */
  lemma CheckOrderKeyword(order: SortOrder)
    ensures CheckOrder(Keyword(order)) == Some(order)
  {
  }

  /**
   * `fileExistInCWD`: scan the names of the working directory's entries and
   * stop at the first equal to `fname`.
   */
  method FileExistInCwd(entries: seq<string>, fname: string) returns (found: bool)
    ensures found <==> fname in entries
  {
    for i := 0 to |entries|
      invariant fname !in entries[..i]
    {
      if entries[i] == fname {
        return true;
      }
      assert entries[..i + 1] == entries[..i] + [entries[i]];
    }
    assert entries[..|entries|] == entries;
    return false;
  }
}

=== FILE: wrappers.dfy ===
/** Optional values, for results that may be absent. */
module Wrappers {

  datatype Option<+T> = None | Some(value: T)
}
